=== FILE: README.md ===
# AQUAAIRE air-quality dashboard, modelled in Dafny

AQUAAIRE reads an air-quality monitor's display from a camera frame or an uploaded
image. A FastAPI server runs OCR on the image and answers with six readings (AQI,
PM2.5, PM10, CO2, temperature, humidity) as a JSON record. A browser dashboard shows
those readings, classifies the AQI as GOOD, MODERATE or POOR, and keeps a ten-entry
history drawn as a table and a chart. The same server also hands out the frontend's
static files.

This project models:

- the server's image endpoint `process_image`. OCR detections are filtered by
  confidence, stripped and kept when non-blank. The values are then assigned to the
  six fields by position, with `"0"` as the default. Every failure becomes an error
  record.
- the server's catch-all static route `serve_static`, including `os.path.join`.
- the dashboard's reply handling. A reply counts only when its status is exactly
  `"success"`. The AQI text goes through JavaScript's `parseInt` and the 50/150
  thresholds. The result drives the history ledger (push, then at most one eviction,
  capacity 10), the newest-first history table with its row colours, and the
  oldest-first chart series.

| module (file) | what it is |
|---|---|
| `Wrappers` (wrappers.dfy) | `Option` and `Result` |
| `Seqs` (seqs.dfy) | dropping leading or trailing elements that satisfy a predicate, and small facts about concatenation |
| `PyText` (py_text.dfy) | Python's `str.strip()` with its `isspace` character set |
| `JsParseInt` (js_parse_int.dfy) | JavaScript's `parseInt(string)`: white space, sign, `0x` prefix, longest digit prefix, NaN as `None` |
| `AqiStatus` (aqi_status.dfy) | the AQI thresholds, pill texts, card and row colours |
| `Ledger` (ledger.dfy) | the bounded history (`push` then `shift`), and reversal |
| `Wire` (wire.dfy) | the endpoint's response and its JSON object |
| `OcrService` (ocr_service.dfy) | `process_image` |
| `StaticFiles` (static_files.dfy) | `serve_static` and a confined variant |
| `Dashboard` (dashboard.dfy) | `processImage`, `updateDashboard`, `updateHistoryTable`, `updateChart` |

A JSON object is a map from keys to strings, because the server writes only string
values. A key the object lacks reads as JavaScript's `undefined` (`None`). Since
`parseInt(undefined)` parses the text `"undefined"`, it is NaN, and NaN is POOR
because every comparison with NaN is false. `parseInt` yields exact integers. Its
double result can differ only for numerals of more than 15 decimal or 13 hexadecimal
digits. Rounding to a double is monotone and 50 and 150 are exact doubles, so the model
classifies every text the way the browser does.

The confidence threshold `0.1` is the exact value of the double nearest to 0.1, so
`prob > 0.1` on doubles and on reals agree. The 400 raised for an undecodable image
is caught by the endpoint's own `except Exception`. Its message is that exception's
text, `"400: Invalid image format"` (Starlette's `HTTPException.__str__`).

`updateDashboard` shifts at most once after each push (frontend/script.js:131). From a
ledger of at most ten entries this keeps the ten newest, as `Ledger.PushAllWindow`
proves. The readings are the strings the server sends (backend/main.py:80-85): they are
shown verbatim, the chart plots the raw `aqi` values, and only the status goes through
`parseInt`.

## Model

| member | source | states |
|---|---|---|
| `AqiStatus.Classify` | frontend/script.js:108-120 | GOOD exactly when the parsed AQI is below 50, MODERATE exactly when it lies in [50, 150), POOR exactly when it is NaN or at least 150 |
| `AqiStatus.ClassifyMonotone` | frontend/script.js:108-120 | a higher AQI never gets a better status |
| `AqiStatus.ClassifyBoundaries` | frontend/script.js:108-120 | 49 is GOOD, 50 and 149 are MODERATE, 150 and NaN are POOR |
| `AqiStatus.Text` | frontend/script.js:109-117 | the pill reads "GOOD", "MODERATE" or "POOR", each exactly for its own status |
| `AqiStatus.CardColour` | frontend/script.js:111-119 | the card's border is green exactly for GOOD, yellow exactly for MODERATE, red exactly for POOR |
| `AqiStatus.RowColour` | frontend/script.js:148 | a row is green exactly for "GOOD", yellow exactly for "MODERATE", red for every other text |
| `AqiStatus.RowColourMatchesCard` | frontend/script.js:148 | a history row gets the colour the AQI card got for the same status (lines 111, 115, 119), and distinct statuses have distinct pill texts |
| `JsParseInt.Magnitude` | frontend/script.js:103 | an unsigned text has a magnitude exactly when a digit begins it: a hexadecimal one after `0x`/`0X`, a decimal one otherwise |
| `JsParseInt.ParseInt` | frontend/script.js:103 | NaN exactly when, after white space, one sign and any `0x`/`0X` prefix, no digit of the applicable radix begins the text; a negative result only after "-", and never a positive one after it |
| `JsParseInt.ParseIntAfterSpace` | frontend/script.js:103 | leading white space never changes what `parseInt` reads |
| `JsParseInt.ParseIntDecimal` | frontend/script.js:103 | white space, an optional sign, then a decimal digit run ending at a non-digit gives the run's value, negated after "-", unless the run is a lone "0" followed by `x` or `X` |
| `JsParseInt.ParseIntText` | frontend/script.js:103 | `parseInt` reads back every integer from its decimal numeral |
| `JsParseInt.ParseIntOcrText` | frontend/script.js:103 | on text over the OCR alphabet (digits, ".", " "), `parseInt` is a number exactly when the first non-blank character is a digit |
| `JsParseInt.ParseIntUndefined` | frontend/script.js:103 | `parseInt` of a missing `aqi`, which reads the text "undefined", is NaN |
| `JsParseInt.ParseIntEmpty` | frontend/script.js:103 | the empty text is NaN |
| `JsParseInt.ParseIntLeadingDot` | frontend/script.js:103 | ". 5" is NaN even though a digit follows |
| `JsParseInt.ParseIntFraction` | frontend/script.js:103 | " 1.5" reads 1: the fraction is cut at the dot |
| `JsParseInt.ParseIntHex` | frontend/script.js:103 | "0x1F" reads 31: a `0x` prefix switches to base 16 |
| `Ledger.Push` | frontend/script.js:124-131 | below capacity the entry is appended; at capacity the oldest is dropped and the entry appended; a ledger within capacity stays within it; nothing appears that was not there or pushed |
| `Ledger.PushKeeps` | frontend/script.js:124-131 | a property that holds of every ledger entry and of the pushed one holds of every entry after the push |
| `Ledger.PushAll` | frontend/script.js:124-131 | any run of updates keeps a ledger of at most ten entries within ten |
| `Ledger.PushWindow` | frontend/script.js:124-131 | pushing onto the last ten of a sequence gives the last ten of the extended sequence |
| `Ledger.PushAllWindow` | frontend/script.js:124-131 | from a ledger of at most ten, any run of updates leaves exactly the ten newest entries in arrival order |
| `Ledger.ElevenUpdates` | frontend/script.js:124-131 | eleven updates from empty leave entries 2 through 11 |
| `Ledger.FewUpdates` | frontend/script.js:124-131 | up to ten updates from empty are all kept, in order |
| `Ledger.Reverse` | frontend/script.js:142 | position i of the copy holds position n-1-i of the original |
| `Ledger.ReverseInvolutive` | frontend/script.js:142 | reversing twice gives the original |
| `Dashboard.StartMonitor` | frontend/script.js:20-25 | starting the monitor creates an empty chart and leaves the ledger alone |
| `Dashboard.StatusOf` | frontend/script.js:103-120 | a missing `aqi` (JavaScript's `undefined`) is POOR; a present one gets the classification of its `parseInt` |
| `Dashboard.Table` | frontend/script.js:138-152 | one row per ledger entry, newest first, each row showing its entry |
| `Dashboard.TableNewestFirst` | frontend/script.js:142-150 | entries [A, B, C] are shown as rows [C, B, A] |
| `Dashboard.RefreshChart` | frontend/script.js:194-199 | with no chart nothing is drawn; otherwise labels and points are the ledger's times and raw AQI values, oldest first |
| `Dashboard.ChartFollowsLedger` | frontend/script.js:194-199 | redrawing after an update equals applying the ledger's push-and-evict to the drawn labels and points |
| `Dashboard.UpdateDashboard` | frontend/script.js:83-136 | the six readings are shown verbatim; the pill is the classification of the AQI text; the preview changes only for a non-empty image; the ledger gets one entry carrying the pill text; table and chart are redrawn from the new ledger; the last-sync label is the time label |
| `Dashboard.ProcessImage` | frontend/script.js:65-79 | a received reply whose status is exactly "success" is rendered by `updateDashboard`; a thrown request or any other reply leaves the page as it was |
| `Dashboard.FailureLeavesSession` | frontend/script.js:72-79 | a request that threw, or a reply whose status is not exactly "success", changes nothing on the page |
| `Dashboard.StartIsValid` | frontend/script.js:2-3 | the page as loaded and as started satisfies the page invariant |
| `Dashboard.ProcessKeepsValid` | frontend/script.js:61-136 | every reply keeps the invariant: at most ten entries, every entry's status matching its own AQI, and table and chart drawn from the ledger |
| `Dashboard.ServerReplyOnDashboard` | frontend/script.js:72-136 | a server response sent as JSON either leaves the page alone (an error record) or shows its readings and image and records one entry classified from its AQI text |
| `Dashboard.SampleReplyIsGood` | frontend/script.js:103-109 | the reply with AQI "42" shows GOOD and its six values as sent |
| `PyText.Strip` | backend/main.py:72 | the result has no white space at either end, is no longer than the input, and is empty exactly when the input is all white space |
| `PyText.StripOfPadded` | backend/main.py:72 | stripping any white-space padding off a trimmed text gives that text back |
| `PyText.StripSplits` | backend/main.py:72 | every text is its stripped form with white space before and after it |
| `PyText.StripIdempotent` | backend/main.py:72 | stripping twice is stripping once |
| `OcrService.Extract` | backend/main.py:69-73 | no more values than detections, and none of them empty |
| `OcrService.ExtractValues` | backend/main.py:69-73 | the endpoint's loop computes the extracted values |
| `OcrService.ExtractAppend` | backend/main.py:69-73 | extraction keeps the order of detections: it distributes over concatenation |
| `OcrService.ExtractSingle` | backend/main.py:70-73 | one detection yields its stripped text when it is confident and non-blank, and nothing otherwise |
| `OcrService.ExtractMembers` | backend/main.py:69-73 | a value is extracted exactly when some detection with confidence above 0.1 strips to it and it is not blank |
| `OcrService.Assemble` | backend/main.py:79-85 | the k-th field holds the k-th extracted value, or "0" when there are fewer than k+1 values |
| `OcrService.AssembleIgnoresRest` | backend/main.py:79-85 | values past the sixth never reach a field |
| `OcrService.AssemblePads` | backend/main.py:79-85 | no values at all gives "0" in every field |
| `OcrService.ProcessImage` | backend/main.py:61-93 | a response is processed exactly when decoding, OCR and encoding all succeed, and then carries the assembled readings, the clock's timestamp and the image as a PNG data URI; otherwise it is the error record carrying the message of the first failing step (decoding, OCR, then encoding), with "400: Invalid image format" for an undecodable image |
| `OcrService.ProcessImageAnswers` | backend/main.py:79-93 | every answer has status "success" or "error"; a success carries a data-URI image; exactly the errors carry a message; an undecodable image is answered with the error record, not a 400 |
| `OcrService.ReadingsNeverBlank` | backend/main.py:69-85 | no reading of a processed response is ever blank |
| `Wire.ToJson` | backend/main.py:79-93 | a success record has exactly the nine keys and status "success"; an error record has exactly status "error" and a message; the record reads back as the response it came from |
| `StaticFiles.Join` | backend/main.py:110-112 | an absolute second path replaces the directory; otherwise, for a directory that does not end in '/', one separator is put between them |
| `StaticFiles.ServeStatic` | backend/main.py:102-118 | 404 exactly for paths starting with "api"; the root serves the index; any other path serves its joined target when that is a file, and the index otherwise |
| `StaticFiles.ServesFileOrIndex` | backend/main.py:114-118 | whatever is served is an existing file or the index |
| `StaticFiles.ApiPrefixIsTextual` | backend/main.py:105-106 | the "api" test is on characters: "apiary" is refused too, "ap" is not |
| `StaticFiles.RelativeStaysInside` | backend/main.py:109-115 | for a relative request path, the served target's text begins with the directory and a separator; a `..` segment can still name a file outside it (see Findings) |
| `StaticFiles.AbsolutePathEscapes` | backend/main.py:112-115 | the path "/etc/passwd" is served from outside the frontend directory |
| `StaticFiles.ServeStaticConfined` | backend/main.py:102-118 | corrected route: the same 404 rule, and the same answer as the original for every confined path |
| `StaticFiles.ConfinedServesInside` | backend/main.py:102-118 | the corrected route serves only the index or a confined path below the frontend directory |
| `StaticFiles.ConfinedRefusesEscape` | backend/main.py:102-118 | the corrected route answers "/etc/passwd" and "../backend/main.py" with the index |

## Left out

- Camera access, the flash effect, canvas capture and JPEG encoding (frontend/script.js:27-53): these are browser devices and drawing. The model starts from the reply.
- The auto-capture timer (frontend/script.js:201-210) and overlapping requests: timers and concurrency are not modelled. One reply is handled at a time, in arrival order.
- `fetch`, multipart encoding and `response.json()`: a request either throws (`Threw`) or yields a JSON object (`Received`).
- `console.error` logging on failures: it has no effect on the page.
- `toLocaleTimeString`: the time label is a parameter.
- The "Last sync" label: it is recorded as the time label only.
- Chart.js configuration and `chart.update('none')`: the chart is its labels and data points.
- Setting `textContent` to `undefined`, which renders as an empty field: readings are kept as the raw JSON value (`None` for a missing key).
- JSON numbers, nulls and nested values in replies: the server writes only strings, so a reply is a map from strings to strings.
- Rounding of `parseInt` results to doubles for numerals of more than 15 decimal or 13 hexadecimal digits: the classification is unaffected (see above).
- OpenCV decoding and preprocessing, EasyOCR, PNG and base64 encoding, and `datetime.now()` (backend/main.py:46-55, 63-68, 76-77, 86): foreign code. Each step's outcome, or the exception it raised, is a parameter (`OcrService.Steps`). The bounding boxes are not read.
- Logging middleware, CORS and the `/api/health` route (backend/main.py:26-40, 95-97): they do not change any answer modelled here.
- The file system: `os.path.exists(target) and os.path.isfile(target)` is the predicate `isFile`. `FileResponse` is the `File(target)` reply. `FRONTEND_DIR` is a parameter.
- The 404 body and FastAPI's routing of the `/api` prefix to its own router before the catch-all.
- `OcrService.ProcessImage`: the error message of a foreign exception is whatever text that step reports. Only the 400's text is fixed, to Starlette's `"status: detail"` form.

## Findings

| source | as written | input that shows it | evidently intended | confidence | as-written member | corrected member |
|---|---|---|---|---|---|---|
| backend/main.py:112-115 | `os.path.join(FRONTEND_DIR, path)` is served whenever it names a file. An absolute `path` replaces the directory, and a `..` segment climbs out of it. | `GET //etc/passwd` gives path "/etc/passwd", which is served as "/etc/passwd" | only files below the frontend directory are served; anything else falls back to the index | not executed; medium (the route's path parameter keeps the leading slash) | `StaticFiles.AbsolutePathEscapes` | `StaticFiles.ConfinedServesInside` |

=== FILE: aqi_status.dfy ===
/** The AQI status classification of the dashboard and the colours tied to it. */
module AqiStatus {
  import opened Wrappers

  datatype Status = Good | Moderate | Poor

  /** Readings below this are GOOD. */
  const GoodBelow: int := 50
  /** Readings from `GoodBelow` up to below this are MODERATE. */
  const ModerateBelow: int := 150

  /** JavaScript's `n < k` for a number that may be NaN (`None`): NaN is below nothing. */
  predicate Below(n: Option<int>, k: int) {
    n.Some? && n.value < k
  }

  /** The status chosen for a parsed AQI: two comparisons tried in order, POOR when both fail. */
  function Classify(aqi: Option<int>): (s: Status)
    ensures s == Good <==> aqi.Some? && aqi.value < 50
    ensures s == Moderate <==> aqi.Some? && 50 <= aqi.value < 150
    ensures s == Poor <==> aqi.None? || aqi.value >= 150
  {
    if Below(aqi, GoodBelow) then Good
    else if Below(aqi, ModerateBelow) then Moderate
    else Poor
  }

  /** Severity order of the statuses. */
  function Rank(s: Status): nat {
    match s
    case Good => 0
    case Moderate => 1
    case Poor => 2
  }

  /** A higher reading never gets a milder status. */
  lemma ClassifyMonotone(a: int, b: int)
    requires a <= b
    ensures Rank(Classify(Some(a))) <= Rank(Classify(Some(b)))
  {
  }

  /** The boundaries: 49 is GOOD, 50 and 149 are MODERATE, 150 is POOR, NaN is POOR. */
  lemma ClassifyBoundaries()
    ensures Classify(Some(49)) == Good && Classify(Some(50)) == Moderate
    ensures Classify(Some(149)) == Moderate && Classify(Some(150)) == Poor
    ensures Classify(None) == Poor
  {
  }

  /** The text the status pill shows, which is also what the history stores:
      each status has its own text. */
  function Text(s: Status): (t: string)
    ensures t == "GOOD" <==> s == Good
    ensures t == "MODERATE" <==> s == Moderate
    ensures t == "POOR" <==> s == Poor
  {
    match s
    case Good => "GOOD"
    case Moderate => "MODERATE"
    case Poor => "POOR"
  }

  datatype Colour = Green | Yellow | Red

  /** The left-border colour of the AQI card for a status. */
  function CardColour(s: Status): (c: Colour)
    ensures c == Green <==> s == Good
    ensures c == Yellow <==> s == Moderate
    ensures c == Red <==> s == Poor
  {
    match s
    case Good => Green
    case Moderate => Yellow
    case Poor => Red
  }

  /** The colour of a history row, decided from the stored status text alone:
      green for GOOD, yellow for MODERATE, red for any other text. */
  function RowColour(status: string): (c: Colour)
    ensures c == Green <==> status == "GOOD"
    ensures c == Yellow <==> status == "MODERATE"
    ensures c == Red <==> status != "GOOD" && status != "MODERATE"
  {
    if status == "GOOD" then Green else if status == "MODERATE" then Yellow else Red
  }

  /** A history row is coloured like the AQI card was for the same status, and
      distinct statuses have distinct texts. */
  lemma RowColourMatchesCard(s: Status, t: Status)
    ensures RowColour(Text(s)) == CardColour(s)
    ensures Text(s) == Text(t) ==> s == t
  {
  }
}

=== FILE: dashboard.dfy ===
/** The browser dashboard: what one reply of the image endpoint does to the session —
    the readings panel, the status pill, the history ledger, the history table and the chart. */
module Dashboard {
  import opened Wrappers
  import JsParseInt
  import opened AqiStatus
  import Ledger
  import Wire

  /** One history entry: time label, the raw `aqi` and `pm25` values, and the pill text. */
  datatype Entry = Entry(time: string, aqi: Option<string>, pm25: Option<string>, status: string)

  /** One rendered table row. */
  datatype Row = Row(time: string, aqi: Option<string>, pm25: Option<string>, status: string, colour: Colour)

  /** The chart's labels and data points. */
  datatype Chart = Chart(labels: seq<string>, points: seq<Option<string>>)

  /** The six reading fields, each showing the reply's value verbatim. */
  datatype Readings = Readings(
    aqi: Option<string>, pm25: Option<string>, pm10: Option<string>,
    co2: Option<string>, temp: Option<string>, humidity: Option<string>)

  /** Everything else on screen: readings, status pill, preview image, last-sync label.
      `None` is a field never written. */
  datatype Panel = Panel(readings: Option<Readings>, status: Option<Status>, preview: Option<string>, lastSync: Option<string>)

  /** The page state: the ledger, the panel, the table rows, and the chart once created. */
  datatype Session = Session(history: seq<Entry>, panel: Panel, table: seq<Row>, chart: Option<Chart>)

  /** The page as loaded: nothing recorded, no chart yet. */
  const Blank: Session := Session([], Panel(None, None, None, None), [], None)

  /** Starting the monitor creates an empty chart. */
  function StartMonitor(s: Session): (r: Session)
    ensures r.chart == Some(Chart([], [])) && r.history == s.history
  {
    s.(chart := Some(Chart([], [])))
  }

  /** `String(v)` for a JSON value that is a string or `undefined`. */
  function JsText(v: Option<string>): string {
    match v
    case Some(t) => t
    case None => "undefined"
  }

  /** The status a raw `aqi` value gets: `parseInt`, then the thresholds. */
  function StatusOf(aqi: Option<string>): (s: Status)
    ensures aqi.None? ==> s == Poor
    ensures aqi.Some? ==> s == Classify(JsParseInt.ParseInt(aqi.value))
  {
    JsParseInt.ParseIntUndefined();
    Classify(JsParseInt.ParseInt(JsText(aqi)))
  }

  function RowOf(e: Entry): Row {
    Row(e.time, e.aqi, e.pm25, e.status, RowColour(e.status))
  }

  function Rows(h: seq<Entry>): (rows: seq<Row>)
    ensures |rows| == |h|
    ensures forall i :: 0 <= i < |h| ==> rows[i] == RowOf(h[i])
  {
    if h == [] then [] else Rows(h[..|h| - 1]) + [RowOf(h[|h| - 1])]
  }

  /** The history table: one row per entry, newest first, each coloured by its status. */
  function Table(h: seq<Entry>): (rows: seq<Row>)
    ensures |rows| == |h|
    ensures forall i :: 0 <= i < |h| ==> rows[i] == RowOf(h[|h| - 1 - i])
  {
    Rows(Ledger.Reverse(h))
  }

  function Times(h: seq<Entry>): (ts: seq<string>)
    ensures |ts| == |h|
    ensures forall i :: 0 <= i < |h| ==> ts[i] == h[i].time
  {
    if h == [] then [] else Times(h[..|h| - 1]) + [h[|h| - 1].time]
  }

  function Aqis(h: seq<Entry>): (vs: seq<Option<string>>)
    ensures |vs| == |h|
    ensures forall i :: 0 <= i < |h| ==> vs[i] == h[i].aqi
  {
    if h == [] then [] else Aqis(h[..|h| - 1]) + [h[|h| - 1].aqi]
  }

  /** The chart redrawn from the ledger, oldest first; no chart stays no chart. */
  function RefreshChart(chart: Option<Chart>, h: seq<Entry>): (r: Option<Chart>)
    ensures chart.None? <==> r.None?
    ensures r.Some? ==> |r.value.labels| == |h| == |r.value.points|
    ensures r.Some? ==> forall i :: 0 <= i < |h| ==> r.value.labels[i] == h[i].time && r.value.points[i] == h[i].aqi
  {
    if chart.None? then None else Some(Chart(Times(h), Aqis(h)))
  }

  /** A JavaScript string is truthy when it is not empty. */
  predicate Truthy(v: Option<string>) {
    v.Some? && v.value != ""
  }

  /** Rendering one successful reply `data` received at time label `now`. */
  function UpdateDashboard(s: Session, data: Wire.Json, now: string): (r: Session)
    ensures r.panel.readings == Some(Readings(Wire.Get(data, "aqi"), Wire.Get(data, "pm25"), Wire.Get(data, "pm10"),
                                              Wire.Get(data, "co2"), Wire.Get(data, "temp"), Wire.Get(data, "humidity")))
    ensures r.panel.status == Some(StatusOf(Wire.Get(data, "aqi")))
    ensures r.panel.preview == if Truthy(Wire.Get(data, "processed_image")) then Wire.Get(data, "processed_image") else s.panel.preview
    ensures r.history == Ledger.Push(s.history, Entry(now, Wire.Get(data, "aqi"), Wire.Get(data, "pm25"), Text(r.panel.status.value)))
    ensures r.table == Table(r.history)
    ensures r.chart == RefreshChart(s.chart, r.history)
    ensures r.panel.lastSync == Some(now)
  {
    var aqi := Wire.Get(data, "aqi");
    var status := StatusOf(aqi);
    var readings := Readings(aqi, Wire.Get(data, "pm25"), Wire.Get(data, "pm10"),
                             Wire.Get(data, "co2"), Wire.Get(data, "temp"), Wire.Get(data, "humidity"));
    var image := Wire.Get(data, "processed_image");
    var preview := if Truthy(image) then image else s.panel.preview;
    var history := Ledger.Push(s.history, Entry(now, aqi, Wire.Get(data, "pm25"), Text(status)));
    Session(history, Panel(Some(readings), Some(status), preview, Some(now)), Table(history), RefreshChart(s.chart, history))
  }

  /** How the request ended in the browser: the fetch or the JSON parsing threw, or a JSON object came back. */
  datatype Fetched = Threw | Received(data: Wire.Json)

  /** `processImage`: only a reply whose status is exactly "success" reaches the dashboard. */
  function ProcessImage(s: Session, f: Fetched, now: string): (r: Session)
    ensures f.Received? && Wire.Get(f.data, "status") == Some("success") ==> r == UpdateDashboard(s, f.data, now)
    ensures !(f.Received? && Wire.Get(f.data, "status") == Some("success")) ==> r == s
  {
    match f
    case Threw => s
    case Received(data) =>
      if Wire.Get(data, "status") == Some("success") then UpdateDashboard(s, data, now) else s
  }

  /** A thrown request or a reply without status "success" changes nothing on the page. */
  lemma FailureLeavesSession(s: Session, f: Fetched, now: string)
    requires f.Threw? || Wire.Get(f.data, "status") != Some("success")
    ensures ProcessImage(s, f, now) == s
  {
  }

  /** An entry is consistent when its pill text is the classification of its own `aqi` value. */
  predicate Consistent(e: Entry) {
    e.status == Text(StatusOf(e.aqi))
  }

  /** What holds of the loaded page, of `StartMonitor(Blank)`, and of every state reached
      from them by replies. */
  predicate Valid(s: Session) {
    && |s.history| <= Ledger.Capacity
    && (forall i :: 0 <= i < |s.history| ==> Consistent(s.history[i]))
    && s.table == Table(s.history)
    && (s.chart.None? || s.chart == Some(Chart(Times(s.history), Aqis(s.history))))
  }

  lemma StartIsValid()
    ensures Valid(Blank) && Valid(StartMonitor(Blank))
  {
  }

  /** Every reply keeps the page valid: the ledger within capacity, every entry's
      status matching its own reading, and table and chart drawn from the ledger. */
  lemma {:induction false} ProcessKeepsValid(s: Session, f: Fetched, now: string)
    requires Valid(s)
    ensures Valid(ProcessImage(s, f, now))
  {
    var r := ProcessImage(s, f, now);
    if r != s {
      var data := f.data;
      var e := Entry(now, Wire.Get(data, "aqi"), Wire.Get(data, "pm25"), Text(StatusOf(Wire.Get(data, "aqi"))));
      assert r.history == Ledger.Push(s.history, e);
      Ledger.PushKeeps(s.history, e, Consistent);
    }
  }

  /** The history table shows entries [A, B, C] as rows [C, B, A]. */
  lemma TableNewestFirst(a: Entry, b: Entry, c: Entry)
    ensures Table([a, b, c]) == [RowOf(c), RowOf(b), RowOf(a)]
  {
  }

  /** Drawing the chart after an update is updating the drawn series: the chart's
      labels and points follow the same push-then-evict rule as the ledger. */
  lemma {:induction false} ChartFollowsLedger(h: seq<Entry>, e: Entry)
    ensures Times(Ledger.Push(h, e)) == Ledger.Push(Times(h), e.time)
    ensures Aqis(Ledger.Push(h, e)) == Ledger.Push(Aqis(h), e.aqi)
  {
    var r := Ledger.Push(h, e);
    var t := Ledger.Push(Times(h), e.time);
    assert |Times(r)| == |t|;
    forall i | 0 <= i < |r| ensures Times(r)[i] == t[i] {
      if |h| >= Ledger.Capacity && i < |r| - 1 {
        assert r[i] == h[i + 1];
      } else if i < |r| - 1 {
        assert r[i] == h[i];
      }
    }
    var v := Ledger.Push(Aqis(h), e.aqi);
    forall i | 0 <= i < |r| ensures Aqis(r)[i] == v[i] {
      if |h| >= Ledger.Capacity && i < |r| - 1 {
        assert r[i] == h[i + 1];
      } else if i < |r| - 1 {
        assert r[i] == h[i];
      }
    }
  }

  /** End to end: a server response, sent as JSON, either leaves the page alone (an error
      record) or shows its six readings verbatim, its image, and records one entry whose
      status is the classification of its `aqi` text. */
  lemma ServerReplyOnDashboard(s: Session, resp: Wire.Response, now: string)
    ensures resp.Failed? ==> ProcessImage(s, Received(Wire.ToJson(resp)), now) == s
    ensures resp.Processed? ==>
      var r := ProcessImage(s, Received(Wire.ToJson(resp)), now);
      var m := resp.metrics;
      && r.panel.readings == Some(Readings(Some(m.aqi), Some(m.pm25), Some(m.pm10), Some(m.co2), Some(m.temp), Some(m.humidity)))
      && r.panel.status == Some(Classify(JsParseInt.ParseInt(m.aqi)))
      && r.panel.preview == (if resp.processedImage != "" then Some(resp.processedImage) else s.panel.preview)
      && r.history == Ledger.Push(s.history, Entry(now, Some(m.aqi), Some(m.pm25), Text(Classify(JsParseInt.ParseInt(m.aqi)))))
  {
  }

  /** The sample reply {aqi 42, pm25 10, pm10 20, co2 400, temp 22, humidity 55} shows
      GOOD and the six values as sent. */
  lemma SampleReplyIsGood(s: Session, img: string, t: string, now: string)
    ensures var resp := Wire.Processed(Wire.Metrics("42", "10", "20", "400", "22", "55"), t, img);
      var r := ProcessImage(s, Received(Wire.ToJson(resp)), now);
      && r.panel.status == Some(Good)
      && r.panel.readings == Some(Readings(Some("42"), Some("10"), Some("20"), Some("400"), Some("22"), Some("55")))
  {
    ParseIntFortyTwo();
    ServerReplyOnDashboard(s, Wire.Processed(Wire.Metrics("42", "10", "20", "400", "22", "55"), t, img), now);
  }

  lemma ParseIntFortyTwo()
    ensures JsParseInt.ParseInt("42") == Some(42)
  {
    FortyTwoText();
    JsParseInt.ParseIntText(42);
  }

  lemma FortyTwoText()
    ensures JsParseInt.IntText(42) == "42"
  {
    assert JsParseInt.NatText(4) == "4";
    assert JsParseInt.NatText(42) == JsParseInt.NatText(4) + "2";
  }
}

=== FILE: js_parse_int.dfy ===
/** JavaScript's global `parseInt(string)` called without a radix, over strings.
    NaN is `None`; every other result is the exact mathematical integer. */
module JsParseInt {
  import opened Wrappers
  import Seqs

  /** StrWhiteSpaceChar of ECMAScript: WhiteSpace (including the Zs category) and LineTerminator. */
  predicate IsSpace(c: char) {
    || c == '\t' || c == '\U{B}' || c == '\U{C}' || c == ' ' || c == '\U{A0}' || c == '\U{FEFF}'
    || c == '\U{1680}' || ('\U{2000}' <= c <= '\U{200A}') || c == '\U{202F}' || c == '\U{205F}' || c == '\U{3000}'
    || c == '\n' || c == '\r' || c == '\U{2028}' || c == '\U{2029}'
  }

  /** Numeric value of a hexadecimal digit (either case); 16 for every other character. */
  function DigitValue(c: char): (v: nat)
    ensures v <= 16
  {
    if '0' <= c <= '9' then (c as int) - ('0' as int)
    else if 'a' <= c <= 'f' then (c as int) - ('a' as int) + 10
    else if 'A' <= c <= 'F' then (c as int) - ('A' as int) + 10
    else 16
  }

  /** `c` is a digit of base `radix` (10 or 16). */
  predicate IsDigit(c: char, radix: nat) {
    DigitValue(c) < radix
  }

  /** A decimal digit: exactly the characters '0' to '9'. */
  predicate IsDecimal(c: char) {
    IsDigit(c, 10)
  }

  /** The string left after dropping leading white space. */
  function TrimStart(s: string): (r: string)
    ensures |r| <= |s| && r == s[|s| - |r|..]
    ensures forall i :: 0 <= i < |s| - |r| ==> IsSpace(s[i])
    ensures r == [] || !IsSpace(r[0])
  {
    Seqs.DropWhile(s, IsSpace)
  }

  /** The longest prefix of `s` made of base-`radix` digits. */
  function DigitPrefix(s: string, radix: nat): (d: string)
    ensures d <= s
    ensures forall i :: 0 <= i < |d| ==> IsDigit(d[i], radix)
    ensures |d| == |s| || !IsDigit(s[|d|], radix)
  {
    if |s| > 0 && IsDigit(s[0], radix) then [s[0]] + DigitPrefix(s[1..], radix) else []
  }

  /** The number a digit string denotes in base `radix`, most significant digit first. */
  function Value(d: string, radix: nat): nat {
    if d == [] then 0 else Value(d[..|d| - 1], radix) * radix + DigitValue(d[|d| - 1])
  }

  /** The text after one optional leading sign. */
  function Unsigned(t: string): string {
    if |t| > 0 && (t[0] == '-' || t[0] == '+') then t[1..] else t
  }

  predicate HasHexPrefix(u: string) {
    |u| >= 2 && u[0] == '0' && (u[1] == 'x' || u[1] == 'X')
  }

  /** An unsigned text that begins a number: a hexadecimal digit right after a `0x`/`0X`
      prefix, or a decimal digit first otherwise. */
  predicate StartsNumber(u: string) {
    if HasHexPrefix(u) then |u| > 2 && IsDigit(u[2], 16) else |u| > 0 && IsDecimal(u[0])
  }

  /** The magnitude an unsigned text denotes: base 16 after a `0x`/`0X` prefix, base 10
      otherwise, read up to the first non-digit; no digits at all is NaN. */
  function Magnitude(u: string): (r: Option<nat>)
    ensures r.Some? <==> StartsNumber(u)
  {
    var radix := if HasHexPrefix(u) then 16 else 10;
    var d := DigitPrefix(if HasHexPrefix(u) then u[2..] else u, radix);
    if d == [] then None else Some(Value(d, radix))
  }

  /** `parseInt` on a text with no leading white space: one optional sign, then the magnitude. */
  function ParseTrimmed(t: string): Option<int> {
    match Magnitude(Unsigned(t))
    case None => None
    case Some(v) => Some(if |t| > 0 && t[0] == '-' then -(v as int) else v)
  }

  /** `parseInt(s)`: skip leading white space, then read a signed magnitude. The result is
      NaN exactly when no digit of the applicable radix begins the text after the white
      space, the sign and any `0x`/`0X` prefix, and it is negative only after a minus sign. */
  function ParseInt(s: string): (r: Option<int>)
    ensures r.Some? <==> StartsNumber(Unsigned(TrimStart(s)))
    ensures r.Some? && r.value < 0 ==> |TrimStart(s)| > 0 && TrimStart(s)[0] == '-'
    ensures r.Some? && |TrimStart(s)| > 0 && TrimStart(s)[0] == '-' ==> r.value <= 0
  {
    ParseTrimmed(TrimStart(s))
  }

  /** The decimal numeral JavaScript's `String(n)` produces for an integer of safe size. */
  function NatText(n: nat): (s: string)
    ensures |s| > 0
    ensures forall i :: 0 <= i < |s| ==> IsDecimal(s[i])
  {
    if n < 10 then [('0' as int + n) as char]
    else NatText(n / 10) + [('0' as int + n % 10) as char]
  }

  function IntText(n: int): string {
    if n < 0 then "-" + NatText(-n) else NatText(n)
  }

  lemma {:induction false} TrimStartPadded(ws: string, x: string)
    requires forall i :: 0 <= i < |ws| ==> IsSpace(ws[i])
    requires x == [] || !IsSpace(x[0])
    ensures TrimStart(ws + x) == x
    decreases |ws|
  {
    if ws == [] {
      assert ws + x == x;
    } else {
      assert (ws + x)[1..] == ws[1..] + x;
      TrimStartPadded(ws[1..], x);
    }
  }

  lemma {:induction false} DigitPrefixSplit(digits: string, rest: string, radix: nat)
    requires forall i :: 0 <= i < |digits| ==> IsDigit(digits[i], radix)
    requires rest == [] || !IsDigit(rest[0], radix)
    ensures DigitPrefix(digits + rest, radix) == digits
    decreases |digits|
  {
    if digits == [] {
      assert digits + rest == rest;
    } else {
      assert (digits + rest)[1..] == digits[1..] + rest;
      DigitPrefixSplit(digits[1..], rest, radix);
      assert [digits[0]] + digits[1..] == digits;
    }
  }

  /** Leading white space never changes what `parseInt` reads. */
  lemma {:induction false} ParseIntAfterSpace(ws: string, x: string)
    requires forall i :: 0 <= i < |ws| ==> IsSpace(ws[i])
    requires x == [] || !IsSpace(x[0])
    ensures ParseInt(ws + x) == ParseTrimmed(x)
  {
    TrimStartPadded(ws, x);
  }

  /** A decimal run that is not the `0` of a `0x` prefix is read in base 10 up to the first non-digit. */
  lemma {:induction false} MagnitudeDecimal(digits: string, rest: string)
    requires |digits| > 0 && forall i :: 0 <= i < |digits| ==> IsDecimal(digits[i])
    requires rest == [] || !IsDecimal(rest[0])
    requires !(digits == "0" && |rest| > 0 && (rest[0] == 'x' || rest[0] == 'X'))
    ensures Magnitude(digits + rest) == Some(Value(digits, 10))
  {
    var u := digits + rest;
    assert !HasHexPrefix(u) by {
      if |digits| >= 2 {
        assert u[1] == digits[1];
      } else if |u| >= 2 {
        assert u[1] == rest[0];
        assert u[0] == digits[0];
        assert digits == [digits[0]];
      }
    }
    DigitPrefixSplit(digits, rest, 10);
  }

  /** An optional sign followed by a decimal run gives that run's value, negated after `-`. */
  lemma {:induction false} SignedDecimal(sign: string, digits: string, rest: string)
    requires sign == "" || sign == "+" || sign == "-"
    requires |digits| > 0 && forall i :: 0 <= i < |digits| ==> IsDecimal(digits[i])
    requires rest == [] || !IsDecimal(rest[0])
    requires !(digits == "0" && |rest| > 0 && (rest[0] == 'x' || rest[0] == 'X'))
    ensures ParseTrimmed(sign + digits + rest)
         == Some(if sign == "-" then -(Value(digits, 10) as int) else Value(digits, 10))
  {
    var u := digits + rest;
    var x := sign + u;
    assert sign + digits + rest == x;
    assert Unsigned(x) == u by {
      if sign != "" {
        assert x[1..] == u;
      }
    }
    assert |x| > 0 && (x[0] == '-' <==> sign == "-") by {
      if sign == "" {
        assert x[0] == digits[0];
      } else {
        assert x[0] == sign[0];
      }
    }
    MagnitudeDecimal(digits, rest);
  }

  /** A run of decimal digits after optional white space and sign is read in base 10,
      whatever non-digit follows, unless the run is a lone `0` that starts a `0x` prefix. */
  lemma {:induction false} ParseIntDecimal(ws: string, sign: string, digits: string, rest: string)
    requires forall i :: 0 <= i < |ws| ==> IsSpace(ws[i])
    requires sign == "" || sign == "+" || sign == "-"
    requires |digits| > 0 && forall i :: 0 <= i < |digits| ==> IsDecimal(digits[i])
    requires rest == [] || !IsDecimal(rest[0])
    requires !(digits == "0" && |rest| > 0 && (rest[0] == 'x' || rest[0] == 'X'))
    ensures ParseInt(ws + sign + digits + rest)
         == Some(if sign == "-" then -(Value(digits, 10) as int) else Value(digits, 10))
  {
    var x := sign + digits + rest;
    SignedDecimal(sign, digits, rest);
    assert x[0] == if sign == "" then digits[0] else sign[0];
    ParseIntAfterSpace(ws, x);
    Seqs.Regroup4(ws, sign, digits, rest);
  }

  lemma {:induction false} ValueOfNatText(n: nat)
    ensures Value(NatText(n), 10) == n
  {
    if n >= 10 {
      var s := NatText(n);
      assert s[..|s| - 1] == NatText(n / 10);
      ValueOfNatText(n / 10);
    }
  }

  /** Reading back the decimal numeral of an integer yields that integer. */
  lemma {:induction false} ParseIntText(n: int)
    ensures ParseInt(IntText(n)) == Some(n)
  {
    var digits := if n < 0 then NatText(-n) else NatText(n);
    var sign := if n < 0 then "-" else "";
    assert IntText(n) == [] + sign + digits + [];
    ParseIntDecimal([], sign, digits, []);
    ValueOfNatText(if n < 0 then -n else n);
  }

  /** A character the OCR engine is allowed to emit: a digit, a dot or a space. */
  predicate IsOcrChar(c: char) {
    IsDecimal(c) || c == '.' || c == ' '
  }

  /** The first character of OCR text that is not blank. */
  predicate DigitAfterBlanks(s: string, i: int) {
    0 <= i < |s| && IsDecimal(s[i]) && forall j :: 0 <= j < i ==> s[j] == ' '
  }

  lemma {:induction false} OcrTrimmedNumber(t: string)
    requires forall i :: 0 <= i < |t| ==> IsOcrChar(t[i])
    requires ParseTrimmed(t).Some?
    ensures t != [] && IsDecimal(t[0])
  {
    assert Unsigned(t) == t;
    assert !HasHexPrefix(t) by {
      if |t| >= 2 { assert IsOcrChar(t[1]); }
    }
    assert DigitPrefix(t, 10) != [];
  }

  lemma {:induction false} OcrSuffix(s: string, k: nat)
    requires k <= |s| && forall i :: 0 <= i < |s| ==> IsOcrChar(s[i])
    ensures forall i :: 0 <= i < |s[k..]| ==> IsOcrChar(s[k..][i])
  {
    forall i | 0 <= i < |s[k..]| ensures IsOcrChar(s[k..][i]) {
      assert s[k..][i] == s[k + i];
    }
  }

  lemma {:induction false} OcrNumberStartsWithDigit(s: string)
    requires forall i :: 0 <= i < |s| ==> IsOcrChar(s[i])
    requires ParseInt(s).Some?
    ensures DigitAfterBlanks(s, |s| - |TrimStart(s)|)
  {
    var t := TrimStart(s);
    var k := |s| - |t|;
    OcrSuffix(s, k);
    OcrTrimmedNumber(t);
    OcrBlanks(s, k);
    assert s[k] == t[0];
  }

  /** The only white space OCR text can hold is the space character. */
  lemma {:induction false} OcrBlanks(s: string, k: nat)
    requires k <= |s| && forall i :: 0 <= i < |s| ==> IsOcrChar(s[i])
    requires forall j :: 0 <= j < k ==> IsSpace(s[j])
    ensures forall j :: 0 <= j < k ==> s[j] == ' '
  {
  }

  lemma {:induction false} SplitAtDigits(s: string, i: nat, digits: string, rest: string)
    requires i <= |s| && digits + rest == s[i..]
    ensures s == s[..i] + "" + digits + rest
  {
    assert s == s[..i] + s[i..];
  }

  lemma {:induction false} OcrDigitGivesNumber(s: string, i: int)
    requires forall j :: 0 <= j < |s| ==> IsOcrChar(s[j])
    requires DigitAfterBlanks(s, i)
    ensures ParseInt(s).Some?
  {
    var digits := DigitPrefix(s[i..], 10);
    var rest := s[i..][|digits|..];
    assert digits + rest == s[i..];
    assert |digits| > 0 by {
      assert s[i..][0] == s[i];
    }
    assert !(digits == "0" && |rest| > 0 && (rest[0] == 'x' || rest[0] == 'X')) by {
      if |rest| > 0 { assert rest[0] == s[i + |digits|]; }
    }
    SplitAtDigits(s, i, digits, rest);
    ParseIntDecimal(s[..i], "", digits, rest);
  }

  /** On OCR text, `parseInt` yields a number exactly when the first character that is
      not a space is a digit; so `""`, `"   "` and `". 5"` are NaN. */
  lemma {:induction false} ParseIntOcrText(s: string)
    requires forall i :: 0 <= i < |s| ==> IsOcrChar(s[i])
    ensures ParseInt(s).Some? <==> exists i :: DigitAfterBlanks(s, i)
  {
    if ParseInt(s).Some? {
      OcrNumberStartsWithDigit(s);
    }
    if exists i :: DigitAfterBlanks(s, i) {
      var i :| DigitAfterBlanks(s, i);
      OcrDigitGivesNumber(s, i);
    }
  }

  /** The empty text is NaN. */
  lemma {:induction false} ParseIntEmpty()
    ensures ParseInt("") == None
  {
  }

  /** `parseInt(undefined)` reads the text "undefined", which is NaN. */
  lemma {:induction false} ParseIntUndefined()
    ensures ParseInt("undefined") == None
  {
    UndefinedUnsigned();
  }

  lemma {:induction false} UndefinedUnsigned()
    ensures TrimStart("undefined") == "undefined" && Unsigned("undefined") == "undefined"
  {
  }

  /** OCR text that starts with a dot is NaN, even when a digit follows later. */
  lemma {:induction false} ParseIntLeadingDot()
    ensures ParseInt(". 5") == None
  {
    LeadingDotUnsigned();
    LeadingDotNoDigits();
  }

  lemma {:induction false} LeadingDotUnsigned()
    ensures TrimStart(". 5") == ". 5" && Unsigned(". 5") == ". 5" && !HasHexPrefix(". 5")
  {
  }

  lemma {:induction false} LeadingDotNoDigits()
    ensures DigitPrefix(". 5", 10) == []
  {
  }

  /** A fraction is cut at the dot. */
  lemma {:induction false} ParseIntFraction()
    ensures ParseInt(" 1.5") == Some(1)
  {
    FractionText();
    ParseIntDecimal(" ", "", "1", ".5");
    ValueOfOne();
  }

  lemma {:induction false} FractionText()
    ensures " " + "" + "1" + ".5" == " 1.5"
  {
  }

  lemma {:induction false} ValueOfOne()
    ensures Value("1", 10) == 1
  {
    assert "1"[..0] == "";
  }

  lemma {:induction false} HexDigitsOneF()
    ensures DigitPrefix("1F", 16) == "1F"
    ensures Value("1F", 16) == 31
  {
    assert "1F"[1..] == "F";
    assert DigitPrefix("F", 16) == "F" by {
      assert "F"[1..] == "";
    }
    assert "1F"[..1] == "1";
    assert "1"[..0] == "";
  }

  /** A `0x` prefix switches to base 16. */
  lemma {:induction false} ParseIntHex()
    ensures ParseInt("0x1F") == Some(31)
  {
    HexIsTrimmed();
    MagnitudeHex();
  }

  lemma {:induction false} HexIsTrimmed()
    ensures TrimStart("0x1F") == "0x1F" && Unsigned("0x1F") == "0x1F"
  {
  }

  lemma {:induction false} MagnitudeHex()
    ensures Magnitude("0x1F") == Some(31)
  {
    var u := "0x1F";
    assert HasHexPrefix(u);
    assert u[2..] == "1F";
    HexDigitsOneF();
  }
}

=== FILE: ledger.dfy ===
/** The bounded history ledger of the dashboard: an oldest-first sequence that an
    update extends by one entry and then shortens by at most one from the front. */
module Ledger {
  import Seqs

  /** The number of entries the ledger keeps. */
  const Capacity: nat := 10

  /** One update: append `e`, then drop the first entry if the ledger grew past `Capacity`. */
  function Push<T>(h: seq<T>, e: T): (r: seq<T>)
    ensures |h| < Capacity ==> r == h + [e]
    ensures |h| >= Capacity ==> r == h[1..] + [e]
    ensures |h| <= Capacity ==> |r| <= Capacity
    ensures forall x :: x in r ==> x in h || x == e
  {
    var grown := h + [e];
    if |grown| > Capacity then grown[1..] else grown
  }

  /** The last `k` elements of `s`, or all of them when there are fewer. */
  function Window<T>(s: seq<T>, k: nat): (w: seq<T>)
    ensures |w| == if |s| <= k then |s| else k
  {
    if |s| <= k then s else s[|s| - k..]
  }

  /** The ledger after one update per element of `es`, in order. */
  function PushAll<T>(h: seq<T>, es: seq<T>): (r: seq<T>)
    ensures |h| <= Capacity ==> |r| <= Capacity
  {
    if es == [] then h else Push(PushAll(h, es[..|es| - 1]), es[|es| - 1])
  }

  lemma {:induction false} WindowStep<T>(s: seq<T>, x: T)
    requires |s| >= Capacity
    ensures Window(s + [x], Capacity) == Window(s, Capacity)[1..] + [x]
  {
    var w := Window(s, Capacity);
    assert w == s[|s| - Capacity..];
    var v := Window(s + [x], Capacity);
    assert v == (s + [x])[|s| + 1 - Capacity..];
    assert |v| == |w[1..] + [x]|;
    forall i | 0 <= i < |v| ensures v[i] == (w[1..] + [x])[i] {
      if i < Capacity - 1 {
        assert v[i] == s[|s| + 1 - Capacity + i];
        assert (w[1..] + [x])[i] == w[i + 1];
      }
    }
  }

  /** One update on a window of the inserts so far is the window of one more insert. */
  lemma {:induction false} PushWindow<T>(s: seq<T>, x: T)
    ensures Push(Window(s, Capacity), x) == Window(s + [x], Capacity)
  {
    var w := Window(s, Capacity);
    if |s| < Capacity {
      assert w == s;
    } else {
      WindowStep(s, x);
    }
  }

  /** From any ledger within capacity, a run of updates leaves exactly the last
      `Capacity` of all entries ever inserted, in insertion order. */
  lemma {:induction false} PushAllWindow<T>(h: seq<T>, es: seq<T>)
    requires |h| <= Capacity
    ensures PushAll(h, es) == Window(h + es, Capacity)
    decreases |es|
  {
    if es == [] {
      assert h + es == h;
    } else {
      var init := es[..|es| - 1];
      var x := es[|es| - 1];
      PushAllWindow(h, init);
      PushWindow(h + init, x);
      assert es == init + [x];
      Seqs.Regroup(h, init, [x]);
    }
  }

  /** After eleven updates on an empty ledger, the first entry is gone and
      entries 2 to 11 remain in insertion order. */
  lemma ElevenUpdates<T>(es: seq<T>)
    requires |es| == Capacity + 1
    ensures PushAll([], es) == es[1..]
  {
    PushAllWindow([], es);
    assert [] + es == es;
  }

  /** Up to `Capacity` updates on an empty ledger keep every entry. */
  lemma FewUpdates<T>(es: seq<T>)
    requires |es| <= Capacity
    ensures PushAll([], es) == es
  {
    PushAllWindow([], es);
    assert [] + es == es;
  }

  /** A property every entry of the ledger and the new entry have holds of every entry after the push. */
  lemma PushKeeps<T>(h: seq<T>, e: T, p: T -> bool)
    requires forall i :: 0 <= i < |h| ==> p(h[i])
    requires p(e)
    ensures forall i :: 0 <= i < |Push(h, e)| ==> p(Push(h, e)[i])
  {
    var r := Push(h, e);
    forall i | 0 <= i < |r| ensures p(r[i]) {
      var x := r[i];
      assert x in r;
      if x != e {
        var j :| 0 <= j < |h| && h[j] == x;
      }
    }
  }

  /** `[...s].reverse()`: a reversed copy, newest first. */
  function Reverse<T>(s: seq<T>): (r: seq<T>)
    ensures |r| == |s|
    ensures forall i :: 0 <= i < |s| ==> r[i] == s[|s| - 1 - i]
  {
    if s == [] then [] else [s[|s| - 1]] + Reverse(s[..|s| - 1])
  }

  /** Reversing the copy twice gives the ledger back: the table view loses no entry. */
  lemma ReverseInvolutive<T>(s: seq<T>)
    ensures Reverse(Reverse(s)) == s
  {
  }
}

=== FILE: ocr_service.dfy ===
/** The image-processing endpoint of the server: OCR detections become the six
    readings of a response, and every failure becomes an error record. */
module OcrService {
  import opened Wrappers
  import PyText
  import Wire
  import Seqs

  /** One OCR detection: the recognised text and its confidence. The bounding box is not read. */
  datatype Detection = Detection(text: string, prob: real)

  /** The confidence a detection must exceed: the double nearest to 0.1, written out exactly,
      so that `prob > 0.1` on doubles and `prob > MinConfidence` on reals agree. */
  const MinConfidence: real := 0.1000000000000000055511151231257827021181583404541015625

  /** A detection contributes a value: confident enough and not blank once stripped. */
  predicate Kept(d: Detection) {
    d.prob > MinConfidence && PyText.Strip(d.text) != []
  }

  /** The extracted values: the stripped texts of the kept detections, in detection order. */
  function Extract(ds: seq<Detection>): (vals: seq<string>)
    ensures |vals| <= |ds|
    ensures forall k :: 0 <= k < |vals| ==> vals[k] != []
  {
    if ds == [] then []
    else
      var d := ds[|ds| - 1];
      var vals := Extract(ds[..|ds| - 1]);
      if Kept(d) then vals + [PyText.Strip(d.text)] else vals
  }

  /** The loop of the endpoint, appending one stripped value per kept detection. */
  method ExtractValues(ds: seq<Detection>) returns (vals: seq<string>)
    ensures vals == Extract(ds)
  {
    vals := [];
    var i := 0;
    while i < |ds|
      invariant 0 <= i <= |ds|
      invariant vals == Extract(ds[..i])
    {
      var d := ds[i];
      assert ds[..i + 1][..i] == ds[..i] && ds[..i + 1][i] == d;
      ExtractLast(ds[..i + 1]);
      if d.prob > MinConfidence {
        var val := PyText.Strip(d.text);
        if val != [] {
          vals := vals + [val];
        }
      }
      i := i + 1;
    }
    assert ds[..i] == ds;
  }

  /** Extraction distributes over concatenation: it keeps the order of the detections. */
  lemma {:induction false} ExtractAppend(a: seq<Detection>, b: seq<Detection>)
    ensures Extract(a + b) == Extract(a) + Extract(b)
    decreases |b|
  {
    if b == [] {
      assert a + b == a;
    } else {
      var init := b[..|b| - 1];
      assert (a + b)[..|a + b| - 1] == a + init;
      assert (a + b)[|a + b| - 1] == b[|b| - 1];
      ExtractAppend(a, init);
    }
  }

  /** A single detection yields its stripped text when kept and nothing otherwise. */
  lemma ExtractSingle(d: Detection)
    ensures Extract([d]) == if Kept(d) then [PyText.Strip(d.text)] else []
  {
    assert [d][..0] == [];
  }

  /** Detection i is kept and strips to `v`. */
  predicate YieldsAt(ds: seq<Detection>, i: int, v: string) {
    0 <= i < |ds| && Kept(ds[i]) && PyText.Strip(ds[i].text) == v
  }

  lemma {:induction false} ExtractLast(ds: seq<Detection>)
    requires ds != []
    ensures var d := ds[|ds| - 1];
      Extract(ds) == Extract(ds[..|ds| - 1]) + (if Kept(d) then [PyText.Strip(d.text)] else [])
  {
  }

  lemma {:induction false} SourceIsExtracted(ds: seq<Detection>, i: int, v: string)
    requires YieldsAt(ds, i, v)
    ensures v in Extract(ds)
  {
    var before := ds[..i];
    var after := ds[i + 1..];
    Seqs.SplitAround(ds, i);
    ExtractAppend(before + [ds[i]], after);
    ExtractAppend(before, [ds[i]]);
    ExtractSingle(ds[i]);
    Seqs.InMiddle(Extract(before), v, Extract(after));
  }

  lemma {:induction false} ExtractedHasSource(ds: seq<Detection>, v: string) returns (i: int)
    requires v in Extract(ds)
    ensures YieldsAt(ds, i, v)
    decreases |ds|
  {
    var n := |ds| - 1;
    ExtractLast(ds);
    if v in Extract(ds[..n]) {
      i := ExtractedHasSource(ds[..n], v);
      assert ds[..n][i] == ds[i];
    } else {
      i := n;
    }
  }

  /** A value is extracted exactly when some kept detection strips to it. */
  lemma {:induction false} ExtractMembers(ds: seq<Detection>, v: string)
    ensures v in Extract(ds) <==> exists i :: YieldsAt(ds, i, v)
  {
    if v in Extract(ds) {
      var i := ExtractedHasSource(ds, v);
    }
    if exists i :: YieldsAt(ds, i, v) {
      var i :| YieldsAt(ds, i, v);
      SourceIsExtracted(ds, i, v);
    }
  }

  /** The value a field takes when no OCR value reaches it. */
  const Default: string := "0"

  /** The readings of a response: the k-th extracted value goes to the k-th field,
      a missing one reads `Default`, and values past the sixth are dropped. */
  function Assemble(vals: seq<string>): (m: Wire.Metrics)
    ensures forall k :: 0 <= k < 6 ==> Wire.Fields(m)[k] == if k < |vals| then vals[k] else Default
  {
    Wire.Metrics(ValueAt(vals, 0), ValueAt(vals, 1), ValueAt(vals, 2),
                 ValueAt(vals, 3), ValueAt(vals, 4), ValueAt(vals, 5))
  }

  function ValueAt(vals: seq<string>, k: nat): string {
    if |vals| > k then vals[k] else Default
  }

  /** Only the first six values matter. */
  lemma AssembleIgnoresRest(vals: seq<string>, more: seq<string>)
    requires |vals| >= 6
    ensures Assemble(vals + more) == Assemble(vals)
  {
    assert forall k :: 0 <= k < 6 ==> (vals + more)[k] == vals[k];
  }

  /** With at most six values, the fields are those values followed by defaults. */
  lemma AssemblePads(vals: seq<string>)
    requires |vals| <= 6
    ensures Wire.Fields(Assemble(vals)) == vals + seq(6 - |vals|, _ => Default)
  {
    var f := Wire.Fields(Assemble(vals));
    var g := vals + seq(6 - |vals|, _ => Default);
    assert forall k :: 0 <= k < 6 ==> f[k] == g[k];
  }

  /** How decoding the upload ended. */
  datatype Decoding =
    | Decoded                      // the preprocessing produced an image
    | Undecodable                  // the image decoder returned nothing
    | DecodeRaised(message: string) // reading or preprocessing raised

  /** What the foreign steps of one request did: decoding, OCR, PNG-and-base64 encoding,
      and the clock. A `Failure` carries the text of the exception raised. */
  datatype Steps = Steps(
    decoding: Decoding,
    detections: Result<seq<Detection>, string>,
    pngBase64: Result<string, string>,
    now: string)

  /** The text of the 400 raised for an undecodable image, as the catch-all handler sees it. */
  const InvalidImage: string := "400: Invalid image format"

  /** The prefix that makes the encoded image a displayable data URI. */
  const PngDataUri: string := "data:image/png;base64,"

  /** The endpoint: steps run in order, the first one to fail decides the error record,
      and only a run where every step succeeds yields the readings. */
  function ProcessImage(st: Steps): (r: Wire.Response)
    ensures r.Processed? <==> st.decoding == Decoded && st.detections.Success? && st.pngBase64.Success?
    ensures r.Processed? ==> && r.metrics == Assemble(Extract(st.detections.value))
                             && r.timestamp == st.now
                             && r.processedImage == PngDataUri + st.pngBase64.value
    ensures st.decoding == Undecodable ==> r == Wire.Failed(InvalidImage)
    ensures st.decoding.DecodeRaised? ==> r == Wire.Failed(st.decoding.message)
    ensures st.decoding == Decoded && st.detections.Failure? ==> r == Wire.Failed(st.detections.error)
    ensures st.decoding == Decoded && st.detections.Success? && st.pngBase64.Failure? ==> r == Wire.Failed(st.pngBase64.error)
  {
    match st.decoding
    case DecodeRaised(msg) => Wire.Failed(msg)
    case Undecodable => Wire.Failed(InvalidImage)
    case Decoded =>
      match st.detections
      case Failure(msg) => Wire.Failed(msg)
      case Success(ds) =>
        var vals := Extract(ds);
        match st.pngBase64
        case Failure(msg) => Wire.Failed(msg)
        case Success(b64) => Wire.Processed(Assemble(vals), st.now, PngDataUri + b64)
  }

  /** Every answer is a record with a status: "success" with a data URI image,
      or "error" with a message; an undecodable image is not answered with a 400. */
  lemma ProcessImageAnswers(st: Steps)
    ensures var j := Wire.ToJson(ProcessImage(st));
      && Wire.Get(j, "status") in {Some("success"), Some("error")}
      && (Wire.Get(j, "status") == Some("success") ==>
            "processed_image" in j && PngDataUri <= j["processed_image"])
      && (Wire.Get(j, "status") == Some("error") <==> "message" in j)
      && (st.decoding == Undecodable ==> j == map["status" := "error", "message" := InvalidImage])
  {
    var r := ProcessImage(st);
    var j := Wire.ToJson(r);
    if r.Processed? {
      assert j["processed_image"] == PngDataUri + st.pngBase64.value;
      assert "message" !in Wire.ProcessedKeys;
    } else {
      assert j == map["status" := "error", "message" := r.message];
    }
  }

  /** Each reading of a response is the matching extracted value or the default,
      so no field is ever blank. */
  lemma {:induction false} ReadingsNeverBlank(st: Steps)
    requires ProcessImage(st).Processed?
    ensures forall k :: 0 <= k < 6 ==> Wire.Fields(ProcessImage(st).metrics)[k] != []
  {
    var vals := Extract(st.detections.value);
    var f := Wire.Fields(ProcessImage(st).metrics);
    forall k | 0 <= k < 6 ensures f[k] != [] {
      if k < |vals| {
        assert f[k] == vals[k];
      } else {
        assert f[k] == Default;
      }
    }
  }
}

=== FILE: py_text.dfy ===
/** Python's `str.strip()` with no argument, as used on OCR texts. */
module PyText {
  import Seqs

  /** `c.isspace()` in Python 3: the characters `str.strip()` removes. */
  predicate IsSpace(c: char) {
    || ('\t' <= c <= '\r')                 // HT, LF, VT, FF, CR
    || ('\U{1C}' <= c <= '\U{1F}')         // file, group, record and unit separators
    || c == ' ' || c == '\U{85}' || c == '\U{A0}' || c == '\U{1680}'
    || ('\U{2000}' <= c <= '\U{200A}')
    || c == '\U{2028}' || c == '\U{2029}' || c == '\U{202F}' || c == '\U{205F}' || c == '\U{3000}'
  }

  predicate AllSpace(s: string) {
    forall i :: 0 <= i < |s| ==> IsSpace(s[i])
  }

  /** Neither end of `s` is white space. */
  predicate Trimmed(s: string) {
    s == [] || (!IsSpace(s[0]) && !IsSpace(s[|s| - 1]))
  }

  /** `s.lstrip()`: the suffix left after dropping leading white space. */
  function StripStart(s: string): (r: string)
    ensures |r| <= |s| && r == s[|s| - |r|..]
    ensures forall i :: 0 <= i < |s| - |r| ==> IsSpace(s[i])
    ensures r == [] || !IsSpace(r[0])
  {
    Seqs.DropWhile(s, IsSpace)
  }

  /** `s.rstrip()`: the prefix left after dropping trailing white space. */
  function StripEnd(s: string): (r: string)
    ensures |r| <= |s| && r == s[..|r|]
    ensures forall i :: |r| <= i < |s| ==> IsSpace(s[i])
    ensures r == [] || !IsSpace(r[|r| - 1])
  {
    Seqs.DropWhileEnd(s, IsSpace)
  }

  /** `s.strip()`: `s` with white space removed from both ends. */
  function Strip(s: string): (r: string)
    ensures Trimmed(r)
    ensures |r| <= |s|
    ensures r == [] <==> AllSpace(s)
  {
    var t := StripStart(s);
    var r := StripEnd(t);
    assert r != [] ==> r[0] == t[0];
    assert t == [] ==> AllSpace(s) by {
      if t == [] {
        assert s[..|s| - |t|] == s[..|s|] == s;
      }
    }
    assert AllSpace(s) ==> t == [] by {
      if t != [] {
        assert t[0] == s[|s| - |t|];
      }
    }
    r
  }

  lemma {:induction false} StripStartPadded(a: string, m: string)
    requires AllSpace(a)
    requires m == [] || !IsSpace(m[0])
    ensures StripStart(a + m) == m
    decreases |a|
  {
    if a == [] {
      assert a + m == m;
    } else {
      assert (a + m)[1..] == a[1..] + m;
      StripStartPadded(a[1..], m);
    }
  }

  lemma {:induction false} StripEndPadded(m: string, b: string)
    requires AllSpace(b)
    requires m == [] || !IsSpace(m[|m| - 1])
    ensures StripEnd(m + b) == m
    decreases |b|
  {
    if b == [] {
      assert m + b == m;
    } else {
      assert (m + b)[..|m + b| - 1] == m + b[..|b| - 1];
      StripEndPadded(m, b[..|b| - 1]);
    }
  }

  /** Strip recovers the trimmed core of any white-space-padded string:
      with `StripSplits` this pins `Strip` down completely. */
  lemma {:induction false} StripOfPadded(a: string, m: string, b: string)
    requires AllSpace(a) && AllSpace(b) && Trimmed(m)
    ensures Strip(a + m + b) == m
  {
    if m == [] {
      assert a + m + b == a + b;
      assert AllSpace(a + b) by {
        forall i | 0 <= i < |a + b| ensures IsSpace((a + b)[i]) {
          if i < |a| { assert (a + b)[i] == a[i]; } else { assert (a + b)[i] == b[i - |a|]; }
        }
      }
    } else {
      assert a + m + b == a + (m + b);
      StripStartPadded(a, m + b);
      StripEndPadded(m, b);
    }
  }

  lemma {:induction false} StartSplit(s: string)
    ensures s == s[..|s| - |StripStart(s)|] + StripStart(s)
    ensures AllSpace(s[..|s| - |StripStart(s)|])
  {
    var t := StripStart(s);
    assert s == s[..|s| - |t|] + s[|s| - |t|..];
  }

  lemma {:induction false} EndSplit(t: string)
    ensures t == StripEnd(t) + t[|StripEnd(t)|..]
    ensures AllSpace(t[|StripEnd(t)|..])
  {
    var r := StripEnd(t);
    assert t == t[..|r|] + t[|r|..];
    forall i | 0 <= i < |t[|r|..]| ensures IsSpace(t[|r|..][i]) {
      assert t[|r|..][i] == t[|r| + i];
    }
  }

  /** Every string is its stripped form padded with white space on both sides. */
  lemma {:induction false} StripSplits(s: string) returns (a: string, b: string)
    ensures AllSpace(a) && AllSpace(b)
    ensures s == a + Strip(s) + b
  {
    var t := StripStart(s);
    var r := StripEnd(t);
    StartSplit(s);
    EndSplit(t);
    a := s[..|s| - |t|];
    b := t[|r|..];
    Seqs.Regroup(a, r, b);
  }

  /** Stripping twice is stripping once. */
  lemma {:induction false} StripIdempotent(s: string)
    ensures Strip(Strip(s)) == Strip(s)
  {
    var m := Strip(s);
    assert [] + m + [] == m;
    StripOfPadded([], m, []);
  }
}

=== FILE: seqs.dfy ===
/** Small facts about sequence concatenation and slicing, kept apart so that the
    proofs using them need no extensionality reasoning of their own. */
module Seqs {

  lemma Regroup<T>(a: seq<T>, m: seq<T>, b: seq<T>)
    ensures a + (m + b) == a + m + b
  {
  }

  lemma Regroup4<T>(a: seq<T>, b: seq<T>, c: seq<T>, d: seq<T>)
    ensures a + b + c + d == a + (b + c + d)
  {
  }

  lemma SplitAround<T>(s: seq<T>, i: nat)
    requires i < |s|
    ensures s == s[..i] + [s[i]] + s[i + 1..]
  {
  }

  lemma InMiddle<T>(a: seq<T>, x: T, b: seq<T>)
    ensures x in a + [x] + b
  {
    assert (a + [x] + b)[|a|] == x;
  }

  /** The suffix left after dropping the leading elements that satisfy `p`. */
  function DropWhile<T>(s: seq<T>, p: T -> bool): (r: seq<T>)
    ensures |r| <= |s| && r == s[|s| - |r|..]
    ensures forall i :: 0 <= i < |s| - |r| ==> p(s[i])
    ensures r == [] || !p(r[0])
  {
    if |s| > 0 && p(s[0]) then
      var r := DropWhile(s[1..], p);
      assert s[1..][|s| - 1 - |r|..] == s[|s| - |r|..];
      r
    else s
  }

  /** The prefix left after dropping the trailing elements that satisfy `p`. */
  function DropWhileEnd<T>(s: seq<T>, p: T -> bool): (r: seq<T>)
    ensures |r| <= |s| && r == s[..|r|]
    ensures forall i :: |r| <= i < |s| ==> p(s[i])
    ensures r == [] || !p(r[|r| - 1])
  {
    if |s| > 0 && p(s[|s| - 1]) then
      var r := DropWhileEnd(s[..|s| - 1], p);
      assert s[..|s| - 1][..|r|] == s[..|r|];
      r
    else s
  }
}

=== FILE: static_files.dfy ===
/** The server's catch-all GET route, which serves the single-page frontend.
    The file system is a predicate `isFile` over target paths. */
module StaticFiles {

  /** What the route answers: a 404, or the file at a target path. */
  datatype Reply = NotFound | File(target: string)

  /** POSIX `os.path.join(dir, p)`: an absolute `p` replaces `dir`; otherwise a
      separator is inserted unless `dir` is empty or already ends with one. */
  function Join(dir: string, p: string): (r: string)
    ensures |p| > 0 && p[0] == '/' ==> r == p
    ensures (|p| == 0 || p[0] != '/') && |dir| > 0 && dir[|dir| - 1] != '/' ==> r == dir + "/" + p
  {
    if |p| > 0 && p[0] == '/' then p
    else if dir == [] || dir[|dir| - 1] == '/' then dir + p
    else dir + "/" + p
  }

  /** The path of the single-page entry point. */
  function Index(dir: string): string {
    Join(dir, "index.html")
  }

  /** `serve_static` as written: paths starting with "api" are refused, the root maps
      to the index, an existing file is served, and anything else falls back to the index. */
  function ServeStatic(dir: string, isFile: string -> bool, path: string): (r: Reply)
    ensures r.NotFound? <==> "api" <= path
    ensures !("api" <= path) && (path == "" || path == "/") ==> r == File(Index(dir))
    ensures !("api" <= path) && path != "" && path != "/" ==>
              r == if isFile(Join(dir, path)) then File(Join(dir, path)) else File(Index(dir))
  {
    if "api" <= path then NotFound
    else
      var target := if path == "" || path == "/" then Index(dir) else Join(dir, path);
      if isFile(target) then File(target) else File(Index(dir))
  }

  /** Whatever is served is either an existing file or the index. */
  lemma ServesFileOrIndex(dir: string, isFile: string -> bool, path: string)
    ensures var r := ServeStatic(dir, isFile, path);
      r.File? ==> isFile(r.target) || r.target == Index(dir)
  {
  }

  /** The API prefix is matched on characters, not on a path segment: "apiary" is refused too. */
  lemma ApiPrefixIsTextual(dir: string, isFile: string -> bool)
    ensures ServeStatic(dir, isFile, "apiary") == NotFound
    ensures ServeStatic(dir, isFile, "api/health") == NotFound
    ensures ServeStatic(dir, isFile, "ap") != NotFound
  {
  }

  /** For a relative request the served target's text begins with the directory and a
      separator; a `..` segment can still name a file outside it (`ConfinedRefusesEscape`). */
  lemma RelativeStaysInside(dir: string, isFile: string -> bool, path: string)
    requires |dir| > 0 && dir[|dir| - 1] != '/'
    requires path == "" || path[0] != '/'
    ensures var r := ServeStatic(dir, isFile, path);
      r.File? ==> dir + "/" <= r.target
  {
    var r := ServeStatic(dir, isFile, path);
    if r.File? {
      var p := if r.target == Index(dir) then "index.html" else path;
      assert r.target == dir + "/" + p;
    }
  }

  /** As written, an absolute path (the request `GET //etc/passwd`) is joined to itself
      and served from outside the frontend directory whenever such a file exists. */
  lemma AbsolutePathEscapes()
    ensures var dir := "/srv/app/frontend";
      var r := ServeStatic(dir, p => p == "/etc/passwd", "/etc/passwd");
      r == File("/etc/passwd") && !(dir + "/" <= r.target)
  {
    var dir := "/srv/app/frontend";
    assert Join(dir, "/etc/passwd") == "/etc/passwd";
    assert (dir + "/")[1] != "/etc/passwd"[1];
  }

  /** `p` contains the segment ".." starting at index i. */
  predicate ParentSegmentAt(p: string, i: int) {
    && 0 <= i && i + 2 <= |p|
    && p[i] == '.' && p[i + 1] == '.'
    && (i == 0 || p[i - 1] == '/')
    && (i + 2 == |p| || p[i + 2] == '/')
  }

  /** A request path that names a place below the frontend directory: relative and
      without a ".." segment. */
  predicate Confined(p: string) {
    && (p == "" || p[0] != '/')
    && !exists i | 0 <= i < |p| :: ParentSegmentAt(p, i)
  }

  /** The route with the escape closed: a path that is not `Confined` is treated like
      a missing file and falls back to the index; everything else is unchanged. */
  function ServeStaticConfined(dir: string, isFile: string -> bool, path: string): (r: Reply)
    ensures r.NotFound? <==> "api" <= path
    ensures Confined(path) ==> r == ServeStatic(dir, isFile, path)
  {
    if "api" <= path then NotFound
    else if path == "" || path == "/" || !Confined(path) then File(Index(dir))
    else if isFile(Join(dir, path)) then File(Join(dir, path))
    else File(Index(dir))
  }

  /** The corrected route serves only the index or a confined path below the
      frontend directory, never anything above or beside it. */
  lemma ConfinedServesInside(dir: string, isFile: string -> bool, path: string)
    requires |dir| > 0 && dir[|dir| - 1] != '/'
    ensures var r := ServeStaticConfined(dir, isFile, path);
      r.File? ==> r.target == Index(dir) || (Confined(path) && r.target == dir + "/" + path)
    ensures var r := ServeStaticConfined(dir, isFile, path);
      r.File? ==> dir + "/" <= r.target
  {
    var r := ServeStaticConfined(dir, isFile, path);
    if r.File? && r.target != Index(dir) {
      assert r.target == Join(dir, path);
    }
    assert Index(dir) == dir + "/" + "index.html";
  }

  /** The corrected route sends the escaping request of `AbsolutePathEscapes` to the index. */
  lemma ConfinedRefusesEscape()
    ensures ServeStaticConfined("/srv/app/frontend", p => p == "/etc/passwd", "/etc/passwd")
         == File("/srv/app/frontend/index.html")
    ensures ServeStaticConfined("/srv/app/frontend", p => true, "../backend/main.py")
         == File("/srv/app/frontend/index.html")
  {
    assert ParentSegmentAt("../backend/main.py", 0);
  }
}

=== FILE: wire.dfy ===
/** The JSON record the image-processing endpoint returns and the dashboard reads.
    The server writes only string values, so an object is a map from keys to strings;
    a key that is absent reads as JavaScript's `undefined`. */
module Wire {
  import opened Wrappers

  /** The six readings, in the order the server assigns OCR values to them. */
  datatype Metrics = Metrics(aqi: string, pm25: string, pm10: string, co2: string, temp: string, humidity: string)

  /** The readings as a sequence, position k holding the k-th field. */
  function Fields(m: Metrics): (f: seq<string>)
    ensures |f| == 6
  {
    [m.aqi, m.pm25, m.pm10, m.co2, m.temp, m.humidity]
  }

  /** What one call of the endpoint answers. */
  datatype Response =
    | Processed(metrics: Metrics, timestamp: string, processedImage: string)
    | Failed(message: string)

  type Json = map<string, string>

  /** `data.key` in the browser: the value, or `undefined`. */
  function Get(j: Json, key: string): Option<string> {
    if key in j then Some(j[key]) else None
  }

  /** The keys a processed response carries. */
  const ProcessedKeys: set<string> :=
    {"aqi", "pm25", "pm10", "co2", "temp", "humidity", "timestamp", "processed_image", "status"}

  /** The response as the JSON object sent over the wire. */
  function ToJson(r: Response): (j: Json)
    ensures Get(j, "status") == Some(if r.Processed? then "success" else "error")
    ensures r.Processed? ==> j.Keys == ProcessedKeys
    ensures r.Failed? ==> j.Keys == {"status", "message"}
    ensures FromJson(j) == Some(r)
  {
    match r
    case Processed(m, t, img) =>
      map["aqi" := m.aqi, "pm25" := m.pm25, "pm10" := m.pm10, "co2" := m.co2,
          "temp" := m.temp, "humidity" := m.humidity, "timestamp" := t,
          "processed_image" := img, "status" := "success"]
    case Failed(msg) =>
      map["status" := "error", "message" := msg]
  }

  /** Reads a JSON object back as a response, when it has the shape of one. */
  function FromJson(j: Json): Option<Response> {
    if Get(j, "status") == Some("success") && ProcessedKeys <= j.Keys then
      Some(Processed(Metrics(j["aqi"], j["pm25"], j["pm10"], j["co2"], j["temp"], j["humidity"]),
                     j["timestamp"], j["processed_image"]))
    else if Get(j, "status") == Some("error") && "message" in j then
      Some(Failed(j["message"]))
    else None
  }
}

=== FILE: wrappers.dfy ===
/** Failure-carrying values shared by the server and dashboard models. */
module Wrappers {

  /** A value that may be absent; on the dashboard side `None` is JavaScript's `undefined`. */
  datatype Option<+T> = None | Some(value: T)

  /** The outcome of a step that either returns a value or raises an error. */
  datatype Result<+R, +E> = Success(value: R) | Failure(error: E)
}
